=== FILE: README.md ===
# ListPDF pages: a verified model of the client-side state

ListPDF is a web front end for PDF tools whose PDF work runs on a server. This
project models the state its four tool pages keep in the browser, and proves what
their handlers do to it:

- **Merge** (`MergePage`): an ordered batch of PDF files, uploaded as they are
  dropped. Each file gets a thumbnail kept in a map keyed by file name. The batch
  can be reordered by drag and drop, files can be removed or cleared, and the
  batch is combined into one download.
- **Image to PDF** (`ImageToPdfPage`): a list of images and a parallel list of
  preview handles that stay index-aligned, sent together for conversion.
- **Split** (`SplitPage`): one PDF and a page range whose two fields keep
  `1 <= startPage <= endPage`. The extracted range is downloaded as
  `split_<name>`.
- **PDF to image** (`PdfToImagePage`): one PDF and a page number of at least 1.
  The rendered page is shown through a preview handle that each new result
  replaces.

Each page is a `class` whose fields are the page's React state variables. Each
handler is a method whose contract ties the new state to the old one and to its
inputs. A page's `Valid()` invariant holds after every handler. The merge page's
`OnDrop` says that every ok thumbnail fetch made before any fetch threw leaves
its file's name mapped to a handle created during the drop, that every new or
changed entry comes from such a fetch, and that nothing is revoked; it does not
say which of two same-name fetches supplies the entry.

Browser services are modelled as follows:

- Object URLs are handles drawn from a counter (`Browser.ObjectUrls`). A ghost
  log records every revocation in order, so contracts can say which handles a
  handler releases, and in what order.
- A server response is an input to the handler: ok, rejected with a status and
  an optional `error` text, or a thrown network error.
- `parseInt`, `Number.prototype.toString` and the `parseInt(v) || floor`
  fallback are modelled on strings in module `Js`.

The modules are:

- `Wrappers` and `Seqs`: general pieces.
- `Js` and `Browser`: the built-ins the pages call.
- `MergeReorder`: the pure drag-and-drop arithmetic.
- `Merge`, `ImageToPdf`, `Split` and `PdfToImage`: one per page.

Notes on the drag-and-drop reordering:

- **Hit zones.** A card is split at 30% and 70% of its width
  (`src/MergePage.tsx:142-143`).
- **Drops on a later card.** Left and right drops on a card after the dragged
  file land one slot further than the indicator shows (see Findings).
- **Middle drops.** `MergeReorder.DropInGap` proves the forward `-1` for `middle`
  right for every gap the page accepts.

## Model

| member | source | states |
|---|---|---|
| Seqs.Filter | src/MergePage.tsx:15-21 | `filter` keeps an element exactly when it is in the input and passes the test; the result is never longer |
| Seqs.FilterIsSubsequence | src/MergePage.tsx:15-21 | the filtered list keeps its elements in input order |
| Seqs.FilterCount | src/ImageToPdfPage.tsx:12 | the filter keeps every copy of a passing element and no copy of a failing one |
| Seqs.RemoveAt | src/MergePage.tsx:74 | `filter((_, i) => i !== index)` drops exactly index `index`; the others keep their order; the multiset loses just that element |
| Seqs.InsertAt | src/MergePage.tsx:175 | `splice(i, 0, x)` puts `x` at index `i`, shifts the later elements by one, and adds just `x` to the multiset |
| Seqs.Move | src/MergePage.tsx:157-175 | splicing an element out and back in keeps the length and the multiset, and puts the element at the target index |
| Seqs.MoveKeepsOthers | src/MergePage.tsx:157-175 | apart from the moved element, a move leaves the order of the others unchanged |
| Seqs.MoveAt | src/MergePage.tsx:157-175 | the source index of each element that is not the moved one |
| Js.ParseInt | src/SplitPage.tsx:177 | `parseInt` of blank text is `NaN`; text starting with digits reads as the value of its leading digits; a negative result needs a leading minus sign |
| Js.IntToString | src/SplitPage.tsx:33-34 | `toString` of an integer is non-empty decimal digits with no leading zero (the text starts with `0` only for 0), after a minus sign when negative |
| Js.NatToStringCanonical | src/PdfToImagePage.tsx:212 | the decimal text of a natural number starts with `0` only when the number is 0 |
| Js.ParseIntToString | src/SplitPage.tsx:33-34 | `parseInt` reads back exactly the integer `toString` wrote, even when the text goes on with a non-digit |
| Js.ParseIntOfEmpty | src/SplitPage.tsx:177 | `parseInt` of an empty field, or of a lone minus sign, is `NaN` |
| Js.Or | src/PdfToImagePage.tsx:177 | the logical-or fallback on a parsed number keeps it unless it is `NaN` or `0` |
| Js.Max | src/SplitPage.tsx:179 | `Math.max` is one of its arguments and not below either |
| Js.ClampedInput | src/SplitPage.tsx:177 | `Math.max` of `floor` and the parsed input with `floor` as fallback is the typed number when it is non-zero and not below `floor`, and `floor` otherwise; never below `floor` |
| Browser.AppendFiles | src/ImageToPdfPage.tsx:39-42 | the form holds one file field per file under the given name, in list order |
| Browser.FailureAlert | src/ImageToPdfPage.tsx:50-58 | status 413 gives the page's fixed size message; another status gives `Error: ` and the server's `error` text; a body that is not JSON, or a thrown fetch, gives the generic retry message |
| Browser.ObjectUrls.Create | src/ImageToPdfPage.tsx:65 | `createObjectURL` returns a handle never used before, which is live |
| Browser.ObjectUrls.Revoke | src/ImageToPdfPage.tsx:29 | `revokeObjectURL` appends exactly that handle to the log |
| Browser.ObjectUrls.RevokeIfPresent | src/ImageToPdfPage.tsx:80-83 | `if (url) revokeObjectURL(url)` logs the handle when there is one and nothing otherwise |
| Browser.ObjectUrls.Replace | src/ImageToPdfPage.tsx:62-66 | the previous handle, if any, is revoked before a fresh live handle is created |
| MergeReorder.Classify | src/MergePage.tsx:137-143 | for a card of positive width, the cross-multiplied hit test picks the side `x / width` picks (left below 0.3, right above 0.7, middle otherwise); for a zero width it picks the side IEEE division gives, by the sign of `x` |
| MergeReorder.InsertIndex | src/MergePage.tsx:160-173 | the written insertion index, clamped, always lies within the list; where it puts the file is stated by `Reorder` and the drop lemmas |
| MergeReorder.Reorder | src/MergePage.tsx:157-176 | the written drop is a permutation of the batch with the same length, and the dragged file sits at `InsertIndex` |
| MergeReorder.DropOnEarlierCard | src/MergePage.tsx:153-179 | dropping on an earlier card puts the file right before the card for left and middle, and right after it for right |
| MergeReorder.DropOnLaterCard | src/MergePage.tsx:153-179 | dropping on a later card puts the file before the card for middle, AFTER it for left, and after the next card (or last) for right |
| MergeReorder.DropInGap | src/MergePage.tsx:182-190 | a drop into any gap the page accepts puts the file between the two cards that border the gap |
| MergeReorder.IntendedInsertIndex | src/MergePage.tsx:160-173 | the corrected index, applying the forward-drag `-1` to every side, stays within the list |
| MergeReorder.IntendedReorder | src/MergePage.tsx:157-176 | the corrected drop is a permutation of the batch with the same length, and the dragged file sits at the corrected index |
| MergeReorder.IntendedDropOnCard | src/MergePage.tsx:153-179 | with the corrected index, every drop on another card lands before the card for left and middle and after it for right, in either drag direction |
| MergeReorder.IntendedDiffersOnlyForward | src/MergePage.tsx:160-169 | the corrected and written indices differ exactly for left drops, and right drops not on the last card, when the target comes after the dragged file |
| MergeReorder.LeftDropOvershoots | src/MergePage.tsx:160-175 | written code: dragging the first of three files onto the left edge of the third gives `[b, c, a]` |
| MergeReorder.RightDropOvershoots | src/MergePage.tsx:160-175 | written code: dragging the first of three files onto the right edge of the second gives `[b, c, a]` |
| MergeReorder.IntendedLeftDropLandsBefore | src/MergePage.tsx:160-175 | corrected index: the same left-edge drop gives `[b, a, c]` |
| MergeReorder.IntendedRightDropLandsAfter | src/MergePage.tsx:160-175 | corrected index: the same right-edge drop gives `[b, a, c]` |
| MergeReorder.DragFirstToRightEdgeOfLast | src/MergePage.tsx:160-175 | dragging the first of three files onto the right edge of the last gives `[b, c, a]` |
| Merge.ValidFilesSpec | src/MergePage.tsx:14-21 | the upload keeps a file exactly when it is at most 50 MB and of type `application/pdf`, in drop order |
| Merge.TooLargeAlerts | src/MergePage.tsx:16-19 | one alert per oversized file, whatever its type, and the k-th alert names the k-th oversized file |
| Merge.UploadAlerts | src/MergePage.tsx:36-57 | at most one alert: the retry alert exactly when the upload or a thumbnail fetch threw, the size alert exactly for status 413, none for an ok upload whose fetches all succeeded or for another status |
| Merge.OversizedFileRefused | src/MergePage.tsx:14-21 | of A.pdf (10 MB) and B.pdf (60 MB), A is kept and B gives its size alert |
| Merge.MergePage.constructor | src/MergePage.tsx:6-11 | the page starts empty, with nothing dragged and no download |
| Merge.MergePage.OnDrop | src/MergePage.tsx:13-58 | no request without a valid file; the form lists the valid files in order; the batch grows by exactly them only on an ok upload; every ok fetch made before any fetch threw leaves its file's name mapped to a handle created during the drop, even when the name already had one; a new or changed entry comes from such a fetch for a file with that name; overwriting a thumbnail revokes nothing; the alerts are the size alerts, then the 413 or error alert |
| Merge.MergePage.FetchThumbnails | src/MergePage.tsx:40-48 | each file whose fetch is ok before any fetch throws has its name mapped to a handle created by the loop, replacing any older entry; every new or changed entry comes from such a fetch, so the loop stops at the first thrown fetch, which it reports |
| Merge.MergePage.RemoveFile | src/MergePage.tsx:69-80 | exactly index `index` is dropped; the thumbnail of that file NAME is revoked if present and its key deleted, so same-name files lose theirs; other keys are untouched |
| Merge.MergePage.ClearFiles | src/MergePage.tsx:114-123 | every thumbnail handle is revoked once, then the download handle; the batch, the map and the download are emptied |
| Merge.MergePage.RevokeThumbnails | src/MergePage.tsx:116 | revokes exactly the map's values, one call per key |
| Merge.MergePage.HandleCombine | src/MergePage.tsx:82-112 | no request without files; the payload is the file names in batch order; on ok the previous download is revoked before the new one is stored; a failure keeps it and gives the right alert; the button is enabled again |
| Merge.MergePage.HandleDragStart | src/MergePage.tsx:125-128 | records the dragged index; the page invariant is kept |
| Merge.MergePage.HandleDragOver | src/MergePage.tsx:130-146 | no target when nothing is dragged or the dragged card is hovered; otherwise the hovered card and the side the hit test picks; the page invariant is kept |
| Merge.MergePage.HandleDragEnd | src/MergePage.tsx:148-151 | clears the dragged index and the target; the page invariant is kept |
| Merge.MergePage.HandleDrop | src/MergePage.tsx:153-179 | without a dragged index or target nothing changes; otherwise the batch becomes `IntendedReorder`, the written splice with the corrected index (see Findings), and both drag fields are cleared |
| Merge.MergePage.HandleDragOverGap | src/MergePage.tsx:182-190 | the target is cleared exactly when nothing is dragged or the gap borders the dragged card; otherwise it is the gap, as a middle drop; the page invariant is kept |
| Merge.MergePage.GetDropIndicatorPosition | src/MergePage.tsx:192-195 | a side is shown on a card exactly when the target is that card, and it is the target's side |
| ImageToPdf.ImageFilesSpec | src/ImageToPdfPage.tsx:12 | a drop keeps exactly the files whose type starts with `image/`, in drop order |
| ImageToPdf.ImageToPdfPage.constructor | src/ImageToPdfPage.tsx:6-9 | the page starts with no files, no previews and no download |
| ImageToPdf.ImageToPdfPage.OnDrop | src/ImageToPdfPage.tsx:11-18 | the kept images are appended, each with a fresh preview handle at the same index; the two lists stay parallel |
| ImageToPdf.ImageToPdfPage.CreatePreviews | src/ImageToPdfPage.tsx:16 | one new handle per image, in order, none used before |
| ImageToPdf.ImageToPdfPage.RemoveFile | src/ImageToPdfPage.tsx:28-32 | the file's preview is revoked and index `index` leaves both lists; every other file keeps its own preview at its new index |
| ImageToPdf.ImageToPdfPage.HandleConvert | src/ImageToPdfPage.tsx:34-73 | no request without files; every image is sent under `images` in list order; on ok the download handle is replaced, the old one revoked first; a failure gives the 413 message or the server's text and keeps the download |
| ImageToPdf.ImageToPdfPage.ClearFiles | src/ImageToPdfPage.tsx:75-84 | every preview is revoked in list order, then the download; no handle is revoked twice or was revoked before; both lists end empty |
| Split.SplitForm | src/SplitPage.tsx:31-34 | the request holds the file, then `start_page` and `end_page` as text that reads back as the two page numbers |
| Split.DownloadName | src/SplitPage.tsx:57 | the saved name is `split_` followed by the file's name |
| Split.SplitPage.constructor | src/SplitPage.tsx:6-9 | no file and the range 1 to 1 |
| Split.SplitPage.OnDrop | src/SplitPage.tsx:11-16 | the first dropped file is taken only when it is a PDF; otherwise nothing changes; the range invariant is kept |
| Split.SplitPage.OnStartPageChange | src/SplitPage.tsx:176-180 | the start page becomes the clamped input, at least 1; the end page is raised to it and never lowered; `1 <= start <= end` is kept |
| Split.SplitPage.OnEndPageChange | src/SplitPage.tsx:194 | the end page becomes the input clamped to the start page, so the range stays non-empty |
| Split.SplitPage.ClearFile | src/SplitPage.tsx:72-76 | no file and the range back to 1 to 1, which keeps the range invariant |
| Split.SplitPage.HandleSplit | src/SplitPage.tsx:26-70 | no request without a file; the request carries the range on show; on ok the result is saved as `split_<name>` through a handle revoked at once; a failure gives the 413 message or the server's text |
| Split.FallbackOnEmptyOrZero | src/SplitPage.tsx:177 | an empty field and `0` both give page 1 |
| Split.DecimalCutAtPoint | src/SplitPage.tsx:177 | ` 3.7` gives page 3 |
| Split.EndBelowStartRaised | src/SplitPage.tsx:194 | with start page 4, typing `2` or `-5` as the end gives 4 |
| PdfToImage.ConvertForm | src/PdfToImagePage.tsx:36-38 | the request holds the file, then `page_number` as text that reads back as the page number |
| PdfToImage.ImageDownloadName | src/PdfToImagePage.tsx:212 | `page-<n>.png`, whose middle reads back as `n` and has no leading zero, so it is the text `toString` writes |
| PdfToImage.PdfToImagePage.constructor | src/PdfToImagePage.tsx:6-9 | no file, page 1, no preview |
| PdfToImage.PdfToImagePage.OnDrop | src/PdfToImagePage.tsx:11-21 | a first-file PDF replaces the file and revokes and clears the preview; anything else changes nothing; the page number is kept |
| PdfToImage.PdfToImagePage.OnPageNumberChange | src/PdfToImagePage.tsx:177 | the page number becomes the clamped input and stays at least 1 |
| PdfToImage.PdfToImagePage.ClearFile | src/PdfToImagePage.tsx:71-78 | no file, page 1, and the preview revoked and cleared |
| PdfToImage.PdfToImagePage.HandleConvert | src/PdfToImagePage.tsx:31-69 | no request without a file; the request carries the page number; on ok the previous preview is revoked before the new one is shown; a failure keeps the preview; the button is enabled again |
| PdfToImage.PdfToImagePage.DownloadName | src/PdfToImagePage.tsx:210-212 | a download is offered exactly when there is a preview, named `page-<n>.png` after the page number now in the field, with `n` written without a leading zero |
| PdfToImage.DownloadNameFollowsField | src/PdfToImagePage.tsx:212 | different page numbers give different download names, so editing the field renames the download of an image already rendered |

## Left out

- Rendering, markup and layout are not modelled. This includes the gap positions and which gap elements exist, beyond the gap indices the drop handlers receive.
- `fetch`, `FormData`, `alert` and `console` are reduced to what the handlers pass and show. Requests are returned as values, and alerts as strings.
- Concurrency is not modelled. Each handler runs as one atomic step from the state it was rendered with. Overlapping requests and the stale `previewImage` captured by `onDrop`'s `useCallback` (`src/PdfToImagePage.tsx:21`) are out of scope.
- `Response.Ok` stands for a response whose body was also read without error. A failing `response.blob()` after an ok status is not modelled separately.
- `Browser.FailureAlert`: a JSON body without an `error` field (the page would show `Error: undefined`) is treated as a body with some text.
- The hit test uses exact reals rather than IEEE doubles.
- The react-dropzone options (`accept`, `maxFiles`, `multiple`) are not modelled. Only the filtering the handlers do themselves is.
- `Js.ParseInt`: no `0x` hexadecimal prefix, and white space limited to ASCII, no-break space and the byte-order mark. A number field never holds anything else.
- `Js.IntToString`: integers of 1e21 and above, which JavaScript prints in exponent form, are not modelled. Page numbers are exact unbounded integers, not doubles.
- `Merge.MergePage.HandleDrop` requires the dragged index to lie within the batch. The page only records indices of cards it renders.
- `Merge.MergePage.HandleDrop` uses the corrected insertion index. The code as written is `MergeReorder.Reorder` with its lemmas.
- Merge.MergePage.OnDrop: when two uploaded files share a name, the contract does not say that the later fetch supplies the final entry, only that the entry is a handle created during the drop by an ok fetch for that name made before any fetch threw.
- Merge.MergePage.FetchThumbnails: the same: which of two same-name fetches supplies the final entry is not stated.
- `Merge.MergePage.OnDrop` requires one thumbnail response per valid file. Responses after the first thrown fetch are never read.
- `Merge.MergePage.RevokeThumbnails` visits the keys in an unspecified order, whereas `Object.values` follows insertion order. Only the set of revoked handles is stated.
- `ImageToPdf.ImageToPdfPage.RemoveFile` requires an index within the list. The page only calls it from a rendered file's button.
- Handle leaks are not ruled out. An overwritten merge thumbnail is never revoked.

## Findings

| source | as written | input that shows it | evidently intended | confidence | as-written member | corrected member |
|---|---|---|---|---|---|---|
| src/MergePage.tsx:160-169 | The index is computed in the list with the dragged file removed. The `-1` for a forward drag is applied only to a `middle` drop, so `left` and `right` drops on a later card land one slot too far. | Files `[a, b, c]`, drag `a` (index 0) onto the left edge of `c` (index 2): the result is `[b, c, a]`. | The file lands where the indicator shows, right before `c`: `[b, a, c]`. | high; not executed | MergeReorder.LeftDropOvershoots | MergeReorder.IntendedDropOnCard |

=== FILE: browser.dfy ===
/** The browser pieces the four pages share: dropped files, server responses,
    multipart form data and object URLs (`URL.createObjectURL` / `revokeObjectURL`). */
module Browser {
  import opened Wrappers

  /** A dropped file as the handlers see it: its name, size in bytes and MIME type. */
  datatype File = File(name: string, size: nat, mimeType: string)

  const PdfType := "application/pdf"

  predicate IsPdf(f: File)
  {
    f.mimeType == PdfType
  }

  /** What an awaited `fetch` yields: a response with `ok` set, a non-ok response
      with its status and the `error` field of its JSON body (`None` when the body
      is not JSON, so that `response.json()` throws), or a thrown network error. */
  datatype Response = Ok | Rejected(status: int, errorBody: Option<string>) | Thrown

  const PayloadTooLarge := 413

  datatype FieldValue = Text(text: string) | Blob(file: File)
  datatype FormField = FormField(name: string, value: FieldValue)

  /** A `FormData` object: its fields in the order they were appended. */
  type Form = seq<FormField>

  /** `const form = new FormData(); files.forEach(f => form.append(name, f))`. */
  method AppendFiles(name: string, files: seq<File>) returns (form: Form)
    ensures |form| == |files|
    ensures forall k :: 0 <= k < |files| ==> form[k] == FormField(name, Blob(files[k]))
  {
    form := [];
    var i := 0;
    while i < |files|
      invariant 0 <= i <= |files|
      invariant |form| == i
      invariant forall k :: 0 <= k < i ==> form[k] == FormField(name, Blob(files[k]))
    {
      form := form + [FormField(name, Blob(files[i]))];
      i := i + 1;
    }
  }

  /** The alert a single-file transform page shows for a failed request: the fixed
      size message for status 413, the server's `error` text for any other status,
      and the generic retry message when `response.json()` or `fetch` throws. */
  function FailureAlert(r: Response, tooLargeMessage: string): (msg: string)
    requires !r.Ok?
    ensures r.Rejected? && r.status == PayloadTooLarge ==> msg == tooLargeMessage
    ensures r.Rejected? && r.status != PayloadTooLarge && r.errorBody.Some? ==>
              msg == "Error: " + r.errorBody.value
    ensures r.Thrown? || (r.Rejected? && r.status != PayloadTooLarge && r.errorBody.None?) ==>
              msg == UnexpectedErrorAlert
  {
    match r
    case Rejected(status, body) =>
      if status == PayloadTooLarge then tooLargeMessage
      else if body.Some? then "Error: " + body.value
      else UnexpectedErrorAlert
    case Thrown => UnexpectedErrorAlert
  }

  const UnexpectedErrorAlert := "An unexpected error occurred. Please try again."

  /** An object URL, identified by the order in which it was created. */
  type Handle = nat

  /** The object-URL registry of one browsing context. Handles are never reused;
      `revoked` logs every `URL.revokeObjectURL` call in order. */
  class ObjectUrls {
    /** Handles `0 .. next - 1` have been created. */
    var next: nat
    ghost var revoked: seq<Handle>

    /** Only created handles get revoked. */
    ghost predicate Valid()
      reads this
    {
      forall k :: 0 <= k < |revoked| ==> revoked[k] < next
    }

    /** Created and not yet revoked. */
    ghost predicate Live(h: Handle)
      reads this
    {
      h < next && h !in revoked
    }

    constructor ()
      ensures Valid() && next == 0 && revoked == []
    {
      next := 0;
      revoked := [];
    }

    /** `URL.createObjectURL(blob)`: a handle never handed out before. */
    method Create() returns (h: Handle)
      requires Valid()
      modifies this
      ensures Valid() && Live(h)
      ensures h == old(next) && next == old(next) + 1
      ensures revoked == old(revoked)
    {
      h := next;
      next := next + 1;
    }

    /** `URL.revokeObjectURL(h)`. */
    method Revoke(h: Handle)
      requires Valid() && h < next
      modifies this
      ensures Valid()
      ensures next == old(next)
      ensures revoked == old(revoked) + [h]
    {
      revoked := revoked + [h];
    }

    /** `if (h) URL.revokeObjectURL(h)` for a handle that may be `null`. */
    method RevokeIfPresent(h: Option<Handle>)
      requires Valid() && (h.Some? ==> h.value < next)
      modifies this
      ensures Valid()
      ensures next == old(next)
      ensures revoked == old(revoked) + Listed(h)
    {
      if h.Some? {
        Revoke(h.value);
      }
    }

    /** `if (prev) URL.revokeObjectURL(prev); const url = URL.createObjectURL(blob)`:
        the swap the pages do when a new result replaces the one on show. */
    method Replace(prev: Option<Handle>) returns (h: Handle)
      requires Valid() && (prev.Some? ==> prev.value < next)
      modifies this
      ensures Valid() && Live(h)
      ensures revoked == old(revoked) + Listed(prev)
      ensures h == old(next) && next == old(next) + 1
    {
      RevokeIfPresent(prev);
      h := Create();
    }
  }
}

=== FILE: imagetopdf.dfy ===
/** The image-to-PDF page: a list of images, each with a preview object URL kept in
    a parallel list, sent together to be bound into one PDF. */
module ImageToPdf {
  import opened Wrappers
  import opened Seqs
  import opened Browser

  const BatchTooLargeAlert := "Files are too large. Maximum total size is 50 MB."

  /** `file.type.startsWith('image/')`. */
  predicate IsImage(f: File)
  {
    "image/" <= f.mimeType
  }

  /** The files of a drop that join the list. */
  function ImageFiles(dropped: seq<File>): seq<File>
  {
    Filter(IsImage, dropped)
  }

  /** The drop keeps exactly the files whose type starts with `image/`, in drop order. */
  lemma ImageFilesSpec(dropped: seq<File>)
    ensures IsSubsequence(ImageFiles(dropped), dropped)
    ensures forall f :: f in ImageFiles(dropped) <==> f in dropped && "image/" <= f.mimeType
  {
    FilterIsSubsequence(IsImage, dropped);
  }

  /** No handle occurs twice. */
  ghost predicate Distinct(hs: seq<Handle>)
  {
    forall i, j :: 0 <= i < j < |hs| ==> hs[i] != hs[j]
  }

  class ImageToPdfPage {
    var files: seq<File>
    /** `previews[k]` is the preview handle of `files[k]`. */
    var previews: seq<Handle>
    var isSubmitting: bool
    var downloadUrl: Option<Handle>
    const urls: ObjectUrls

    /** One live preview per file, no handle held twice. */
    ghost predicate Valid()
      reads this, urls
    {
      urls.Valid()
      && |files| == |previews|
      && (forall k :: 0 <= k < |previews| ==> urls.Live(previews[k]))
      && Distinct(previews)
      && (downloadUrl.Some? ==> urls.Live(downloadUrl.value) && downloadUrl.value !in previews)
    }

    constructor (urls: ObjectUrls)
      requires urls.Valid()
      ensures Valid() && this.urls == urls
      ensures files == [] && previews == [] && downloadUrl == None && !isSubmitting
    {
      this.urls := urls;
      files := [];
      previews := [];
      downloadUrl := None;
      isSubmitting := false;
    }

    /** `onDrop`: append the image files and a freshly created preview handle for
        each, so that the two lists stay parallel. */
    method OnDrop(dropped: seq<File>)
      requires Valid()
      modifies this`files, this`previews, urls
      ensures Valid()
      ensures var images := ImageFiles(dropped);
              files == old(files) + images
              && |previews| == |old(previews)| + |images|
              && previews[..|old(previews)|] == old(previews)
              && (forall k :: |old(previews)| <= k < |previews| ==>
                    previews[k] == old(urls.next) + (k - |old(previews)|))
              && urls.next == old(urls.next) + |images|
      ensures urls.revoked == old(urls.revoked)
    {
      var images := ImageFiles(dropped);
      var newPreviews := CreatePreviews(|images|);
      files := files + images;
      previews := previews + newPreviews;
      assert previews[..|old(previews)|] == old(previews);
    }

    /** `imageFiles.map(file => URL.createObjectURL(file))`: `n` handles never used
        before, in creation order. */
    method CreatePreviews(n: nat) returns (hs: seq<Handle>)
      requires Valid()
      modifies urls
      ensures Valid()
      ensures |hs| == n && forall k :: 0 <= k < n ==> hs[k] == old(urls.next) + k
      ensures urls.next == old(urls.next) + n && urls.revoked == old(urls.revoked)
    {
      hs := [];
      var i := 0;
      while i < n
        invariant 0 <= i <= n
        invariant Valid()
        invariant |hs| == i && forall k :: 0 <= k < i ==> hs[k] == old(urls.next) + k
        invariant urls.next == old(urls.next) + i && urls.revoked == old(urls.revoked)
      {
        var h := urls.Create();
        hs := hs + [h];
        i := i + 1;
      }
    }

    /** `removeFile(index)`: revoke the file's preview and drop index `index` from
        both lists. */
    method RemoveFile(index: nat)
      requires Valid() && index < |files|
      modifies this`files, this`previews, urls
      ensures Valid()
      ensures files == RemoveAt(old(files), index) && previews == RemoveAt(old(previews), index)
      ensures urls.revoked == old(urls.revoked) + [old(previews)[index]] && urls.next == old(urls.next)
      ensures old(previews)[index] !in previews
      ensures forall k :: 0 <= k < |files| ==>
                var j := if k < index then k else k + 1;
                files[k] == old(files)[j] && previews[k] == old(previews)[j]
    {
      urls.Revoke(previews[index]);
      files := RemoveAt(files, index);
      previews := RemoveAt(previews, index);
    }

    /** `handleConvert`: nothing without files; otherwise send every image under the
        field `images` and, on an ok response, replace the download handle. The
        button is enabled again whatever the outcome. */
    method HandleConvert(response: Response) returns (request: Option<Form>, alert: Option<string>)
      requires Valid()
      modifies this`downloadUrl, this`isSubmitting, urls
      ensures Valid()
      ensures old(files) == [] ==>
                request == None && alert == None && downloadUrl == old(downloadUrl)
                && isSubmitting == old(isSubmitting)
                && urls.next == old(urls.next) && urls.revoked == old(urls.revoked)
      ensures old(files) != [] ==>
                request.Some? && |request.value| == |files|
                && (forall k :: 0 <= k < |files| ==> request.value[k] == FormField("images", Blob(files[k])))
                && !isSubmitting
      ensures old(files) != [] && response.Ok? ==>
                alert == None && downloadUrl == Some(old(urls.next)) && urls.next == old(urls.next) + 1
                && urls.revoked == old(urls.revoked) + Listed(old(downloadUrl))
      ensures old(files) != [] && !response.Ok? ==>
                alert == Some(FailureAlert(response, BatchTooLargeAlert))
                && downloadUrl == old(downloadUrl)
                && urls.next == old(urls.next) && urls.revoked == old(urls.revoked)
    {
      request, alert := None, None;
      if files == [] {
        return;
      }
      isSubmitting := true;
      var form := AppendFiles("images", files);
      request := Some(form);
      if response.Ok? {
        var url := urls.Replace(downloadUrl);
        downloadUrl := Some(url);
      } else {
        alert := Some(FailureAlert(response, BatchTooLargeAlert));
      }
      isSubmitting := false;
    }

    /** `clearFiles`: revoke every preview in list order, then the download handle
        if there is one, and empty both lists. No handle is revoked twice. */
    method ClearFiles()
      requires Valid()
      modifies this`files, this`previews, this`downloadUrl, urls
      ensures Valid()
      ensures files == [] && previews == [] && downloadUrl == None
      ensures urls.revoked == old(urls.revoked) + old(previews) + Listed(old(downloadUrl))
      ensures urls.next == old(urls.next)
      ensures Distinct(urls.revoked[|old(urls.revoked)|..])
      ensures forall h :: h in urls.revoked[|old(urls.revoked)|..] ==> h !in old(urls.revoked)
    {
      ghost var start := |urls.revoked|;
      for i := 0 to |previews|
        invariant urls.Valid() && urls.next == old(urls.next)
        invariant urls.revoked == old(urls.revoked) + previews[..i]
        modifies urls
      {
        urls.Revoke(previews[i]);
        assert previews[..i + 1] == previews[..i] + [previews[i]];
      }
      assert previews[..|previews|] == previews;
      ghost var released := previews;
      files := [];
      previews := [];
      if downloadUrl.Some? {
        urls.Revoke(downloadUrl.value);
        downloadUrl := None;
      }
      assert urls.revoked[start..] == released + Listed(old(downloadUrl));
    }
  }
}

=== FILE: js.dfy ===
/** The JavaScript built-ins the page handlers lean on: `parseInt(s)` with no radix,
    `Number.prototype.toString()` on integers, the `a || b` fallback on numbers and
    the `Math.max(floor, parseInt(v) || floor)` clamp every page-number field uses. */
module Js {
  import opened Wrappers

  /** The white-space characters `parseInt` skips before the number (ASCII ones,
      no-break space and the byte-order mark). */
  predicate IsWhiteSpace(c: char)
  {
    c == ' ' || c == '\t' || c == '\n' || c == '\r' || c == '\U{0B}' || c == '\U{0C}'
    || c == '\U{A0}' || c == '\U{FEFF}'
  }

  predicate IsDigit(c: char)
  {
    '0' <= c <= '9'
  }

  predicate AllDigits(s: string)
  {
    forall i :: 0 <= i < |s| ==> IsDigit(s[i])
  }

  function TrimStart(s: string): string
  {
    if s != [] && IsWhiteSpace(s[0]) then TrimStart(s[1..]) else s
  }

  /** The longest prefix of `s` made of decimal digits. */
  function DigitPrefix(s: string): (r: string)
    ensures AllDigits(r)
  {
    if s != [] && IsDigit(s[0]) then [s[0]] + DigitPrefix(s[1..]) else []
  }

  /** The value of a string of decimal digits, most significant first. */
  function DigitsValue(ds: string): nat
    requires AllDigits(ds)
  {
    if ds == [] then 0
    else DigitsValue(ds[..|ds| - 1]) * 10 + (ds[|ds| - 1] as int - '0' as int)
  }

  /** `parseInt(s)`: `None` stands for `NaN`. Leading white space is skipped, one
      sign is read, then as many decimal digits as follow; the rest is ignored. */
  function ParseInt(s: string): (r: Option<int>)
    ensures TrimStart(s) == [] ==> r == None
    ensures s != [] && IsDigit(s[0]) ==> r == Some(DigitsValue(DigitPrefix(s)))
    ensures r.Some? && r.value < 0 ==> TrimStart(s) != [] && TrimStart(s)[0] == '-'
  {
    var t := TrimStart(s);
    var negative := t != [] && t[0] == '-';
    var body := if t != [] && (t[0] == '-' || t[0] == '+') then t[1..] else t;
    var ds := DigitPrefix(body);
    if ds == [] then None
    else
      var v: int := DigitsValue(ds);
      Some(if negative then -v else v)
  }

  function DigitChar(d: nat): (c: char)
    requires d < 10
    ensures IsDigit(c) && c as int - '0' as int == d
  {
    ('0' as int + d) as char
  }

  function NatToString(n: nat): (r: string)
    ensures r != [] && AllDigits(r)
  {
    if n < 10 then [DigitChar(n)] else NatToString(n / 10) + [DigitChar(n % 10)]
  }

  /** The decimal text of a natural number starts with `0` only when it is `0`. */
  lemma {:induction false} NatToStringCanonical(n: nat)
    ensures NatToString(n)[0] == '0' <==> n == 0
  {
    if n >= 10 {
      NatToStringCanonical(n / 10);
    }
  }

  /** `n.toString()` for an integer `n`: decimal digits with no leading zero, after a
      minus sign when negative. */
  function IntToString(n: int): (r: string)
    ensures r != []
    ensures n >= 0 ==> AllDigits(r) && (r[0] == '0' <==> n == 0)
    ensures n < 0 ==> |r| >= 2 && r[0] == '-' && AllDigits(r[1..]) && r[1] != '0'
  {
    var r := if n < 0 then "-" + NatToString(-n) else NatToString(n);
    NatToStringCanonical(if n < 0 then -n else n);
    r
  }

  lemma {:induction false} NatToStringValue(n: nat)
    ensures DigitsValue(NatToString(n)) == n
  {
    var r := NatToString(n);
    if n >= 10 {
      NatToStringValue(n / 10);
      assert r[..|r| - 1] == NatToString(n / 10);
    }
  }

  lemma {:induction false} DigitPrefixStops(ds: string, rest: string)
    requires AllDigits(ds)
    requires rest == [] || !IsDigit(rest[0])
    ensures DigitPrefix(ds + rest) == ds
  {
    if ds != [] {
      assert (ds + rest)[1..] == ds[1..] + rest;
      DigitPrefixStops(ds[1..], rest);
    } else {
      assert ds + rest == rest;
    }
  }

  /** Digits followed by text that does not continue them read as their value. */
  lemma ParseUnsigned(ds: string, rest: string)
    requires ds != [] && AllDigits(ds)
    requires rest == [] || !IsDigit(rest[0])
    ensures ParseInt(ds + rest) == Some(DigitsValue(ds))
  {
    var t := ds + rest;
    assert t[0] == ds[0];
    assert TrimStart(t) == t;
    DigitPrefixStops(ds, rest);
  }

  /** A minus sign before them negates the value. */
  lemma ParseNegative(ds: string, rest: string)
    requires ds != [] && AllDigits(ds)
    requires rest == [] || !IsDigit(rest[0])
    ensures ParseInt("-" + (ds + rest)) == Some(-(DigitsValue(ds) as int))
  {
    var t := "-" + (ds + rest);
    assert TrimStart(t) == t;
    assert t[1..] == ds + rest;
    DigitPrefixStops(ds, rest);
  }

  /** A minus sign, the decimal text of `m`, then text that does not continue it,
      reads as `-m`. */
  lemma ParseMinusNatToString(m: nat, rest: string)
    requires rest == [] || !IsDigit(rest[0])
    ensures ParseInt(("-" + NatToString(m)) + rest) == Some(-(m as int))
  {
    var ds := NatToString(m);
    NatToStringValue(m);
    ParseNegative(ds, rest);
    assert ("-" + ds) + rest == "-" + (ds + rest);
  }

  /** `parseInt` reads back what `toString` wrote, even with trailing text that does not
      start with a digit (so `"2.5"` and `"1e3"` read as 2 and 1). */
  lemma ParseIntToString(n: int, rest: string)
    requires rest == [] || !IsDigit(rest[0])
    ensures ParseInt(IntToString(n) + rest) == Some(n)
  {
    if n < 0 {
      assert IntToString(n) == "-" + NatToString(-n);
      ParseMinusNatToString(-n, rest);
    } else {
      var ds := NatToString(n);
      NatToStringValue(n);
      ParseUnsigned(ds, rest);
      assert IntToString(n) + rest == ds + rest;
    }
  }

  /** `parseInt` of text without any digit after the sign is `NaN`. */
  lemma ParseIntOfEmpty()
    ensures ParseInt("") == None
    ensures ParseInt("-") == None
  {
  }

  /** `a || fallback` for a parsed number `a`: `NaN` and `0` are both falsy. */
  function Or(a: Option<int>, fallback: int): (r: int)
    ensures a.Some? && a.value != 0 ==> r == a.value
    ensures a.None? || a.value == 0 ==> r == fallback
  {
    if a.Some? && a.value != 0 then a.value else fallback
  }

  function Max(a: int, b: int): (r: int)
    ensures r >= a && r >= b && (r == a || r == b)
  {
    if a >= b then a else b
  }

  /** `Math.max(floor, parseInt(input) || floor)`: the typed number when it is a
      non-zero number not below `floor`, and `floor` for anything else. */
  function ClampedInput(floor: int, input: string): (r: int)
    ensures r >= floor
    ensures var p := ParseInt(input);
            r == if p.Some? && p.value != 0 && p.value >= floor then p.value else floor
  {
    Max(floor, Or(ParseInt(input), floor))
  }
}

=== FILE: merge.dfy ===
/** The merge page: a batch of PDF files staged on the server, a thumbnail per file
    name, drag-and-drop reordering and the combine request. */
module Merge {
  import opened Wrappers
  import opened Seqs
  import opened Browser
  import opened MergeReorder

  /** The per-file size limit, 50 MB. */
  const MaxFileSize := 50 * 1024 * 1024

  const BatchTooLargeAlert := "Files are too large. Maximum total size is 50 MB."
  const UploadErrorAlert := "An error occurred while uploading files. Please try again."
  const CombineFailedAlert := "Failed to combine PDFs. Please try again."
  const CombineErrorAlert := "An error occurred while combining PDFs."

  predicate IsTooLarge(f: File)
  {
    f.size > MaxFileSize
  }

  /** The drop filter's test: not over the size limit, and of PDF type. */
  predicate IsUploadable(f: File)
  {
    !IsTooLarge(f) && IsPdf(f)
  }

  /** The files of a drop that are uploaded. */
  function ValidFiles(dropped: seq<File>): seq<File>
  {
    Filter(IsUploadable, dropped)
  }

  /** The upload keeps exactly the PDF files within the size limit, in drop order. */
  lemma ValidFilesSpec(dropped: seq<File>)
    ensures IsSubsequence(ValidFiles(dropped), dropped)
    ensures forall f :: f in ValidFiles(dropped) <==>
              f in dropped && f.size <= MaxFileSize && f.mimeType == PdfType
  {
    FilterIsSubsequence(IsUploadable, dropped);
  }

  function TooLargeAlert(name: string): string
  {
    "File \"" + name + "\" is too large (maximum 50 MB)."
  }

  /** One alert per oversized file, in drop order, whatever its type: the filter
      tests the size before the type. */
  function TooLargeAlerts(dropped: seq<File>): (alerts: seq<string>)
    ensures |alerts| == |Filter(IsTooLarge, dropped)|
    ensures forall k :: 0 <= k < |alerts| ==> alerts[k] == TooLargeAlert(Filter(IsTooLarge, dropped)[k].name)
  {
    if dropped == [] then []
    else
      (if IsTooLarge(dropped[0]) then [TooLargeAlert(dropped[0].name)] else [])
      + TooLargeAlerts(dropped[1..])
  }

  /** `name` has an entry in `m` holding a handle created at or after `floor`. */
  predicate FreshEntry(m: map<string, Handle>, name: string, floor: nat)
  {
    name in m && floor <= m[name]
  }

  /** None of the first `n` thumbnail fetches threw. */
  predicate NoneThrown(thumbs: seq<Response>, n: nat)
    requires n <= |thumbs|
  {
    forall k :: 0 <= k < n ==> !thumbs[k].Thrown?
  }

  /** The alerts that follow an upload request: a failure of the upload or of any
      thumbnail fetch lands in the same `catch`. */
  function UploadAlerts(upload: Response, thumbnailThrew: bool): (alerts: seq<string>)
    ensures |alerts| <= 1
    ensures UploadErrorAlert in alerts <==> upload.Thrown? || (upload.Ok? && thumbnailThrew)
    ensures BatchTooLargeAlert in alerts <==> upload.Rejected? && upload.status == PayloadTooLarge
    ensures alerts == [] <==>
              (upload.Ok? && !thumbnailThrew) || (upload.Rejected? && upload.status != PayloadTooLarge)
  {
    match upload
    case Ok => if thumbnailThrew then [UploadErrorAlert] else []
    case Rejected(status, _) => if status == PayloadTooLarge then [BatchTooLargeAlert] else []
    case Thrown => [UploadErrorAlert]
  }

  /** The batch example: A.pdf of 10 MB is kept, B.pdf of 60 MB is refused with a warning. */
  lemma OversizedFileRefused()
    ensures var a := File("A.pdf", 10 * 1024 * 1024, PdfType);
            var b := File("B.pdf", 60 * 1024 * 1024, PdfType);
            ValidFiles([a, b]) == [a] && TooLargeAlerts([a, b]) == [TooLargeAlert("B.pdf")]
  {
    var a := File("A.pdf", 10 * 1024 * 1024, PdfType);
    var b := File("B.pdf", 60 * 1024 * 1024, PdfType);
    assert [a, b][1..] == [b] && [b][1..] == [];
    assert Filter(IsUploadable, [b]) == [];
    assert TooLargeAlerts([b]) == [TooLargeAlert("B.pdf")];
  }

  /** A list of handles that holds `m[order[k]]` at each `k`, for an `order` that
      names every key, holds exactly the map's values. */
  lemma ValuesListed(m: map<string, Handle>, order: seq<string>, handles: seq<Handle>)
    requires |handles| == |order|
    requires forall k :: 0 <= k < |order| ==> order[k] in m && handles[k] == m[order[k]]
    requires forall name :: name in m ==> name in order
    ensures forall h :: h in handles <==> h in m.Values
  {
    forall h | h in m.Values
      ensures h in handles
    {
      var name :| name in m && m[name] == h;
      var k :| 0 <= k < |order| && order[k] == name;
      assert handles[k] == h;
    }
  }

  class MergePage {
    var files: seq<File>
    /** Thumbnail handles keyed by FILE NAME: files that share a name share an entry. */
    var thumbnails: map<string, Handle>
    var draggedIndex: Option<nat>
    var dropTarget: Option<DropTarget>
    var downloadUrl: Option<Handle>
    var isSubmitting: bool
    const urls: ObjectUrls

    /** Every handle the page holds is live and held once. */
    ghost predicate Valid()
      reads this, urls
    {
      urls.Valid()
      && (forall name :: name in thumbnails ==> urls.Live(thumbnails[name]))
      && (forall a, b :: a in thumbnails && b in thumbnails && a != b ==> thumbnails[a] != thumbnails[b])
      && (downloadUrl.Some? ==> urls.Live(downloadUrl.value) && downloadUrl.value !in thumbnails.Values)
    }

    constructor (urls: ObjectUrls)
      requires urls.Valid()
      ensures Valid() && this.urls == urls
      ensures files == [] && thumbnails == map[] && draggedIndex == None && dropTarget == None
      ensures downloadUrl == None && !isSubmitting
    {
      this.urls := urls;
      files := [];
      thumbnails := map[];
      draggedIndex := None;
      dropTarget := None;
      downloadUrl := None;
      isSubmitting := false;
    }

    /** `onDrop`: filter, upload the valid files in one request, append them on an ok
        response, then fetch a thumbnail per file. `thumbs[k]` is the answer to the
        thumbnail fetch of the k-th valid file. A new thumbnail replaces the entry
        for its name WITHOUT revoking the handle it replaces. */
    method OnDrop(dropped: seq<File>, upload: Response, thumbs: seq<Response>)
      returns (request: Option<Form>, alerts: seq<string>)
      requires Valid()
      requires |thumbs| >= |ValidFiles(dropped)|
      modifies this, urls
      ensures Valid()
      ensures var valid := ValidFiles(dropped);
              (request.None? <==> valid == [])
              && (request.Some? ==>
                    |request.value| == |valid|
                    && forall k :: 0 <= k < |valid| ==> request.value[k] == FormField("files", Blob(valid[k])))
      ensures var valid := ValidFiles(dropped);
              var uploaded := valid != [] && upload.Ok?;
              files == (if uploaded then old(files) + valid else old(files))
              && (!uploaded ==> thumbnails == old(thumbnails) && urls.next == old(urls.next))
              && (forall k :: 0 <= k < |valid| && uploaded && thumbs[k].Ok? && NoneThrown(thumbs, k) ==>
                    FreshEntry(thumbnails, valid[k].name, old(urls.next)))
              && (forall name :: name in thumbnails && (name !in old(thumbnails) || thumbnails[name] != old(thumbnails)[name]) ==>
                    old(urls.next) <= thumbnails[name]
                    && exists k :: 0 <= k < |valid| && valid[k].name == name && thumbs[k].Ok? && NoneThrown(thumbs, k))
              && alerts == TooLargeAlerts(dropped)
                           + (if valid == [] then [] else UploadAlerts(upload, !NoneThrown(thumbs, |valid|)))
      ensures urls.revoked == old(urls.revoked)
      ensures old(thumbnails).Keys <= thumbnails.Keys
      ensures draggedIndex == old(draggedIndex) && dropTarget == old(dropTarget)
      ensures downloadUrl == old(downloadUrl) && isSubmitting == old(isSubmitting)
    {
      var valid := ValidFiles(dropped);
      alerts := TooLargeAlerts(dropped);
      request := None;
      if valid == [] {
        return;
      }
      var form := AppendFiles("files", valid);
      request := Some(form);
      match upload {
        case Ok =>
          files := files + valid;
          var threw := FetchThumbnails(valid, thumbs);
          if threw {
            alerts := alerts + [UploadErrorAlert];
          }
        case Rejected(status, _) =>
          if status == PayloadTooLarge {
            alerts := alerts + [BatchTooLargeAlert];
          }
        case Thrown =>
          alerts := alerts + [UploadErrorAlert];
      }
    }

    /** The thumbnail loop of `onDrop`: fetch a thumbnail for each uploaded file in
        turn and store it under the file's name, until a fetch throws. */
    method FetchThumbnails(valid: seq<File>, thumbs: seq<Response>) returns (threw: bool)
      requires Valid() && |thumbs| >= |valid|
      modifies this`thumbnails, urls
      ensures Valid()
      ensures threw == !NoneThrown(thumbs, |valid|)
      ensures urls.revoked == old(urls.revoked) && urls.next >= old(urls.next)
      ensures old(thumbnails).Keys <= thumbnails.Keys
      ensures forall name :: name in thumbnails && (name !in old(thumbnails) || thumbnails[name] != old(thumbnails)[name]) ==>
                old(urls.next) <= thumbnails[name]
                && exists k :: 0 <= k < |valid| && valid[k].name == name && thumbs[k].Ok? && NoneThrown(thumbs, k)
      ensures forall k :: 0 <= k < |valid| && thumbs[k].Ok? && NoneThrown(thumbs, k) ==>
                FreshEntry(thumbnails, valid[k].name, old(urls.next))
    {
      var i := 0;
      threw := false;
      while i < |valid| && !threw
        invariant 0 <= i <= |valid|
        invariant threw == !NoneThrown(thumbs, i)
        invariant Valid()
        invariant urls.revoked == old(urls.revoked) && urls.next >= old(urls.next)
        invariant old(thumbnails).Keys <= thumbnails.Keys
        invariant forall name :: name in thumbnails && (name !in old(thumbnails) || thumbnails[name] != old(thumbnails)[name]) ==>
                    old(urls.next) <= thumbnails[name]
                    && exists k :: 0 <= k < i && valid[k].name == name && thumbs[k].Ok? && NoneThrown(thumbs, k)
        invariant forall k :: 0 <= k < i && thumbs[k].Ok? && NoneThrown(thumbs, k) ==>
                    FreshEntry(thumbnails, valid[k].name, old(urls.next))
      {
        match thumbs[i] {
          case Ok =>
            var h := urls.Create();
            thumbnails := thumbnails[valid[i].name := h];
          case Rejected(_, _) =>
          case Thrown =>
            threw := true;
        }
        i := i + 1;
      }
    }

    /** `removeFile(index)`: revoke the thumbnail of the file's NAME if there is one,
        drop that index and delete that key. */
    method RemoveFile(index: nat)
      requires Valid() && index < |files|
      modifies this`files, this`thumbnails, urls
      ensures Valid()
      ensures var name := old(files)[index].name;
              files == RemoveAt(old(files), index)
              && thumbnails == old(thumbnails) - {name}
              && urls.revoked == old(urls.revoked) + (if name in old(thumbnails) then [old(thumbnails)[name]] else [])
              && (forall f :: f in files && f.name == name ==> f.name !in thumbnails)
      ensures forall name :: name in thumbnails ==> name in old(thumbnails) && thumbnails[name] == old(thumbnails)[name]
      ensures urls.next == old(urls.next)
    {
      var file := files[index];
      if file.name in thumbnails {
        urls.Revoke(thumbnails[file.name]);
      }
      files := RemoveAt(files, index);
      thumbnails := thumbnails - {file.name};
    }

    /** `clearFiles`: revoke every thumbnail, then the download handle if there is
        one; empty the batch. Each thumbnail handle is revoked exactly once. */
    method ClearFiles()
      requires Valid()
      modifies this`files, this`thumbnails, this`downloadUrl, urls
      ensures Valid()
      ensures files == [] && thumbnails == map[] && downloadUrl == None
      ensures urls.next == old(urls.next)
      ensures var start := |old(urls.revoked)|;
              var released := |old(thumbnails).Keys|;
              |urls.revoked| == start + released + |Listed(old(downloadUrl))|
              && urls.revoked[..start] == old(urls.revoked)
              && (forall h :: h in urls.revoked[start..start + released] <==> h in old(thumbnails).Values)
              && urls.revoked[start + released..] == Listed(old(downloadUrl))
    {
      RevokeThumbnails();
      files := [];
      thumbnails := map[];
      if downloadUrl.Some? {
        urls.Revoke(downloadUrl.value);
        downloadUrl := None;
      }
    }

    /** `Object.values(thumbnails).forEach(url => URL.revokeObjectURL(url))`, in
        some order of the keys. */
    method RevokeThumbnails()
      requires urls.Valid() && forall name :: name in thumbnails ==> thumbnails[name] < urls.next
      modifies urls
      ensures urls.Valid() && urls.next == old(urls.next)
      ensures var start := |old(urls.revoked)|;
              |urls.revoked| == start + |thumbnails.Keys|
              && urls.revoked[..start] == old(urls.revoked)
              && (forall h :: h in urls.revoked[start..] <==> h in thumbnails.Values)
    {
      ghost var start := |urls.revoked|;
      var pending := thumbnails.Keys;
      ghost var order: seq<string> := [];
      while pending != {}
        invariant pending <= thumbnails.Keys
        invariant forall name :: name in thumbnails ==> (name in pending <==> name !in order)
        invariant |order| + |pending| == |thumbnails.Keys|
        invariant urls.Valid() && urls.next == old(urls.next)
        invariant |urls.revoked| == start + |order|
        invariant urls.revoked[..start] == old(urls.revoked)
        invariant forall k :: 0 <= k < |order| ==> order[k] in thumbnails && urls.revoked[start + k] == thumbnails[order[k]]
        decreases pending
      {
        var name :| name in pending;
        urls.Revoke(thumbnails[name]);
        pending := pending - {name};
        order := order + [name];
      }
      ValuesListed(thumbnails, order, urls.revoked[start..]);
    }

    /** `handleCombine`: nothing without files; otherwise send the file names in batch
        order and, on an ok response, revoke the previous download handle before the
        new one is stored. The button is enabled again whatever the outcome. */
    method HandleCombine(response: Response) returns (request: Option<seq<string>>, alert: Option<string>)
      requires Valid()
      modifies this`downloadUrl, this`isSubmitting, urls
      ensures Valid()
      ensures old(files) == [] ==>
                request == None && alert == None && downloadUrl == old(downloadUrl)
                && isSubmitting == old(isSubmitting)
                && urls.next == old(urls.next) && urls.revoked == old(urls.revoked)
      ensures old(files) != [] ==>
                request.Some? && |request.value| == |files|
                && (forall k :: 0 <= k < |files| ==> request.value[k] == files[k].name)
                && !isSubmitting
      ensures old(files) != [] && response.Ok? ==>
                alert == None && downloadUrl == Some(old(urls.next)) && urls.next == old(urls.next) + 1
                && urls.revoked == old(urls.revoked) + Listed(old(downloadUrl))
      ensures old(files) != [] && !response.Ok? ==>
                alert == Some(if response.Rejected? then CombineFailedAlert else CombineErrorAlert)
                && downloadUrl == old(downloadUrl)
                && urls.next == old(urls.next) && urls.revoked == old(urls.revoked)
    {
      request, alert := None, None;
      if files == [] {
        return;
      }
      isSubmitting := true;
      request := Some(seq(|files|, k requires 0 <= k < |files| reads this => files[k].name));
      match response {
        case Ok =>
          var url := urls.Replace(downloadUrl);
          downloadUrl := Some(url);
        case Rejected(_, _) =>
          alert := Some(CombineFailedAlert);
        case Thrown =>
          alert := Some(CombineErrorAlert);
      }
      isSubmitting := false;
    }

    method HandleDragStart(index: nat)
      requires Valid()
      modifies this`draggedIndex
      ensures Valid()
      ensures draggedIndex == Some(index)
    {
      draggedIndex := Some(index);
    }

    /** `handleDragOver` on card `index`, the cursor `x` pixels from the card's left
        edge on a card `width` pixels wide. */
    method HandleDragOver(index: nat, x: real, width: real)
      requires Valid()
      modifies this`dropTarget
      ensures Valid()
      ensures draggedIndex.None? || draggedIndex == Some(index) ==> dropTarget == None
      ensures draggedIndex.Some? && draggedIndex != Some(index) ==>
                dropTarget == Some(DropTarget(index, Classify(x, width)))
    {
      if draggedIndex.None? || draggedIndex == Some(index) {
        dropTarget := None;
        return;
      }
      dropTarget := Some(DropTarget(index, Classify(x, width)));
    }

    method HandleDragEnd()
      requires Valid()
      modifies this`draggedIndex, this`dropTarget
      ensures Valid()
      ensures draggedIndex == None && dropTarget == None
    {
      draggedIndex := None;
      dropTarget := None;
    }

    /** `handleDrop` on card or gap `targetIndex`: splice the dragged file out of a
        copy of the list, work out the insertion index from the drop target's side
        and splice the file back in. The index is the corrected one: the written
        code subtracts one for a forward drag only on a `middle` drop, which puts
        `left` and `right` drops one slot too far (see `InsertIndex`). */
    method HandleDrop(targetIndex: nat)
      requires Valid()
      requires draggedIndex.Some? && dropTarget.Some? ==> draggedIndex.value < |files|
      modifies this`files, this`draggedIndex, this`dropTarget
      ensures Valid()
      ensures old(draggedIndex).None? || old(dropTarget).None? ==>
                files == old(files) && draggedIndex == old(draggedIndex) && dropTarget == old(dropTarget)
      ensures old(draggedIndex).Some? && old(dropTarget).Some? ==>
                files == IntendedReorder(old(files), old(draggedIndex).value, targetIndex, old(dropTarget).value.position)
                && draggedIndex == None && dropTarget == None
    {
      if draggedIndex.None? || dropTarget.None? {
        return;
      }
      var dragged := draggedIndex.value;
      var newFiles := files;
      var draggedFile := newFiles[dragged];
      newFiles := newFiles[..dragged] + newFiles[dragged + 1..];
      assert newFiles == RemoveAt(files, dragged);

      var insertIndex: int := targetIndex;
      if dropTarget.value.position == Right {
        insertIndex := insertIndex + 1;
      }
      if dragged < targetIndex {
        insertIndex := insertIndex - 1;
      }

      if insertIndex < 0 {
        insertIndex := 0;
      }
      if insertIndex > |newFiles| {
        insertIndex := |newFiles|;
      }
      assert insertIndex == IntendedInsertIndex(dragged, targetIndex, dropTarget.value.position, |files|);

      newFiles := newFiles[..insertIndex] + [draggedFile] + newFiles[insertIndex..];
      files := newFiles;
      draggedIndex := None;
      dropTarget := None;
    }

    /** `handleDragOverGap` on the gap before card `beforeIndex`: no target while
        nothing is dragged or when the gap borders the dragged card. */
    method HandleDragOverGap(beforeIndex: nat)
      requires Valid()
      modifies this`dropTarget
      ensures Valid()
      ensures (draggedIndex.None? || draggedIndex.value == beforeIndex || draggedIndex.value + 1 == beforeIndex)
              <==> dropTarget == None
      ensures dropTarget.Some? ==> dropTarget == Some(DropTarget(beforeIndex, Middle))
    {
      if draggedIndex.None? || draggedIndex.value == beforeIndex || draggedIndex.value + 1 == beforeIndex {
        dropTarget := None;
        return;
      }
      dropTarget := Some(DropTarget(beforeIndex, Middle));
    }

    /** `getDropIndicatorPosition(index)`: the side to highlight on card `index`. */
    function GetDropIndicatorPosition(index: nat): (p: Option<Position>)
      reads this
      ensures p.Some? <==> dropTarget.Some? && dropTarget.value.index == index
      ensures p.Some? ==> p.value == dropTarget.value.position
    {
      if dropTarget.None? || dropTarget.value.index != index then None
      else Some(dropTarget.value.position)
    }
  }
}

=== FILE: merge_reorder.dfy ===
/** The pure part of the merge page's drag-and-drop reordering: where a drop lands. */
module MergeReorder {
  import opened Seqs

  /** Which part of a hovered file card the cursor is over. */
  datatype Position = Left | Right | Middle

  /** The current insertion point: a file card (or the gap before card `index`) and a side. */
  datatype DropTarget = DropTarget(index: nat, position: Position)

  /** The source's rule on the cursor's relative position within the card. */
  function PositionOf(relativeX: real): Position
  {
    if relativeX < 0.3 then Left else if relativeX > 0.7 then Right else Middle
  }

  /** Comparing `x / width` with `c` is comparing `x` with `c * width` when the width
      is positive. */
  lemma ScaledComparison(x: real, width: real, c: real)
    requires width > 0.0
    ensures x < c * width <==> x / width < c
    ensures x > c * width <==> x / width > c
  {
    var rel := x / width;
    assert x - c * width == (rel - c) * width;
    if rel < c {
      assert (rel - c) * width < 0.0;
    } else if rel > c {
      assert (rel - c) * width > 0.0;
    }
  }

  /** The same rule with the division cross-multiplied: `x` is the cursor's offset
      from the card's left edge and `width` the card's width. For a card of positive
      width it picks the side `x / width` picks. For a zero width the source divides
      by zero, and IEEE gives +Infinity, -Infinity or NaN, so the side is right, left
      or middle by the sign of `x`. */
  function Classify(x: real, width: real): (p: Position)
    ensures width > 0.0 ==> p == PositionOf(x / width)
    ensures width == 0.0 ==> p == (if x < 0.0 then Left else if x > 0.0 then Right else Middle)
  {
    var p := if x < 0.3 * width then Left else if x > 0.7 * width then Right else Middle;
    assert width > 0.0 ==> p == PositionOf(x / width) by {
      if width > 0.0 {
        ScaledComparison(x, width, 0.3);
        ScaledComparison(x, width, 0.7);
      }
    }
    p
  }

  /** The index at which `handleDrop` re-inserts the dragged file into the list of
      the `n - 1` others: one past the target for `right`, the target for `left`,
      one before the target for `middle` when dragging forwards, then clamped to
      `0 .. n - 1`. */
  function InsertIndex(dragged: nat, target: nat, position: Position, n: nat): (i: nat)
    requires dragged < n
    ensures i < n
  {
    var insertIndex: int :=
      match position
      case Right => target + 1
      case Left => target
      case Middle => if dragged < target then target - 1 else target;
    var clamped: int :=
      if insertIndex < 0 then 0
      else if insertIndex > n - 1 then n - 1
      else insertIndex;
    clamped
  }

  /** The list `handleDrop` produces. */
  function Reorder<T>(files: seq<T>, dragged: nat, target: nat, position: Position): (r: seq<T>)
    requires dragged < |files|
    ensures |r| == |files|
    ensures multiset(r) == multiset(files)
    ensures r[InsertIndex(dragged, target, position, |files|)] == files[dragged]
  {
    Move(files, dragged, InsertIndex(dragged, target, position, |files|))
  }

  /** Dropping on a card that comes BEFORE the dragged file: `left` and `middle` put
      the file immediately before the card, `right` immediately after it. */
  lemma DropOnEarlierCard<T>(s: seq<T>, dragged: nat, target: nat, position: Position)
    requires target < dragged < |s|
    ensures var r := Reorder(s, dragged, target, position);
            if position == Right then r[target] == s[target] && r[target + 1] == s[dragged]
            else r[target] == s[dragged] && r[target + 1] == s[target]
  {
    var to := InsertIndex(dragged, target, position, |s|);
    if position == Right {
      assert to == target + 1;
      MoveAt(s, dragged, to, target);
    } else {
      assert to == target;
      MoveAt(s, dragged, to, target + 1);
    }
  }

  /** Dropping on a card that comes AFTER the dragged file: `middle` puts the file
      immediately before the card; `left` puts it immediately AFTER the card; `right`
      puts it after the card that follows, or last when the card is the last one. */
  lemma DropOnLaterCard<T>(s: seq<T>, dragged: nat, target: nat, position: Position)
    requires dragged < target < |s|
    ensures var r := Reorder(s, dragged, target, position);
            match position
            case Middle => r[target - 1] == s[dragged] && r[target] == s[target]
            case Left => r[target] == s[dragged] && r[target - 1] == s[target]
            case Right =>
              if target + 1 < |s| then r[target + 1] == s[dragged] && r[target] == s[target + 1]
              else r[|s| - 1] == s[dragged] && r[|s| - 2] == s[target]
  {
    var to := InsertIndex(dragged, target, position, |s|);
    match position
    case Middle =>
      assert to == target - 1;
      MoveAt(s, dragged, to, target);
    case Left =>
      assert to == target;
      MoveAt(s, dragged, to, target - 1);
    case Right =>
      if target + 1 < |s| {
        assert to == target + 1;
        MoveAt(s, dragged, to, target);
      } else {
        assert to == |s| - 1;
        MoveAt(s, dragged, to, |s| - 2);
      }
  }

  /** Dropping into the gap before card `gap` (the gap after the last card is
      `gap == |s|`) puts the file between the two cards that border the gap, for
      every gap the page lets one drop into (not the two next to the dragged card). */
  lemma DropInGap<T>(s: seq<T>, dragged: nat, gap: nat)
    requires dragged < |s| && 1 <= gap <= |s|
    requires dragged != gap && dragged != gap - 1
    ensures var to := InsertIndex(dragged, gap, Middle, |s|);
            var r := Reorder(s, dragged, gap, Middle);
            0 < to && r[to] == s[dragged] && r[to - 1] == s[gap - 1]
            && (gap < |s| ==> to + 1 < |s| && r[to + 1] == s[gap])
  {
    var to := InsertIndex(dragged, gap, Middle, |s|);
    if dragged < gap {
      assert to == gap - 1;
      MoveAt(s, dragged, to, to - 1);
      if gap < |s| {
        MoveAt(s, dragged, to, to + 1);
      }
    } else {
      assert to == gap;
      MoveAt(s, dragged, to, to - 1);
      if gap < |s| {
        MoveAt(s, dragged, to, to + 1);
      }
    }
  }

  /** The insertion index the drop indicators promise. Taking the dragged file out
      shifts every later card one slot to the left, so the written code's one-slot
      correction for forward drags is applied to every side, not to `middle` alone:
      the file then lands immediately before the card for `left`, immediately after
      it for `right`, and where `InsertIndex` puts it for `middle`. */
  function IntendedInsertIndex(dragged: nat, target: nat, position: Position, n: nat): (i: nat)
    requires dragged < n
    ensures i < n
  {
    var insertIndex: int :=
      (if position == Right then target + 1 else target) - (if dragged < target then 1 else 0);
    var clamped: int :=
      if insertIndex < 0 then 0
      else if insertIndex > n - 1 then n - 1
      else insertIndex;
    clamped
  }

  /** The list a drop produces with the corrected index. */
  function IntendedReorder<T>(files: seq<T>, dragged: nat, target: nat, position: Position): (r: seq<T>)
    requires dragged < |files|
    ensures |r| == |files|
    ensures multiset(r) == multiset(files)
    ensures r[IntendedInsertIndex(dragged, target, position, |files|)] == files[dragged]
  {
    Move(files, dragged, IntendedInsertIndex(dragged, target, position, |files|))
  }

  /** With the corrected index, every drop on another card lands on the side the
      indicator shows, whichever way the file is dragged. */
  lemma IntendedDropOnCard<T>(s: seq<T>, dragged: nat, target: nat, position: Position)
    requires dragged < |s| && target < |s| && dragged != target
    ensures var to := IntendedInsertIndex(dragged, target, position, |s|);
            var r := IntendedReorder(s, dragged, target, position);
            r[to] == s[dragged]
            && (position == Right ==> 0 < to && r[to - 1] == s[target])
            && (position != Right ==> to + 1 < |s| && r[to + 1] == s[target])
  {
    var to := IntendedInsertIndex(dragged, target, position, |s|);
    if position == Right {
      assert to == if dragged < target then target else target + 1;
      MoveAt(s, dragged, to, to - 1);
    } else {
      assert to == if dragged < target then target - 1 else target;
      MoveAt(s, dragged, to, to + 1);
    }
  }

  /** The corrected index differs from the written one exactly for `left` drops,
      and `right` drops on any card but the last, on a card after the dragged file. */
  lemma IntendedDiffersOnlyForward(dragged: nat, target: nat, position: Position, n: nat)
    requires dragged < n && target < n
    ensures IntendedInsertIndex(dragged, target, position, n) != InsertIndex(dragged, target, position, n)
            <==> dragged < target && (position == Left || (position == Right && target + 1 < n))
  {
  }

  /** A three-element sequence is the display of its elements. */
  lemma ThreeElements<T>(r: seq<T>, x: T, y: T, z: T)
    requires |r| == 3 && r[0] == x && r[1] == y && r[2] == z
    ensures r == [x, y, z]
  {
  }

  /** The discrepancy on three files: dragging the first onto the left edge of the
      third leaves it last, where the indicator promised the middle. */
  lemma LeftDropOvershoots<T>(a: T, b: T, c: T)
    ensures Reorder([a, b, c], 0, 2, Left) == [b, c, a]
  {
    var s := [a, b, c];
    assert InsertIndex(0, 2, Left, 3) == 2;
    var r := Move(s, 0, 2);
    MoveAt(s, 0, 2, 0);
    MoveAt(s, 0, 2, 1);
    ThreeElements(r, b, c, a);
  }

  /** The same on the right edge of the second file. */
  lemma RightDropOvershoots<T>(a: T, b: T, c: T)
    ensures Reorder([a, b, c], 0, 1, Right) == [b, c, a]
  {
    var s := [a, b, c];
    assert InsertIndex(0, 1, Right, 3) == 2;
    var r := Move(s, 0, 2);
    MoveAt(s, 0, 2, 0);
    MoveAt(s, 0, 2, 1);
    ThreeElements(r, b, c, a);
  }

  /** With the corrected index the left-edge drop puts the first file in the middle. */
  lemma IntendedLeftDropLandsBefore<T>(a: T, b: T, c: T)
    ensures IntendedReorder([a, b, c], 0, 2, Left) == [b, a, c]
  {
    var s := [a, b, c];
    assert IntendedInsertIndex(0, 2, Left, 3) == 1;
    var r := Move(s, 0, 1);
    MoveAt(s, 0, 1, 0);
    MoveAt(s, 0, 1, 2);
    ThreeElements(r, b, a, c);
  }

  /** And so does the right-edge drop on the second file. */
  lemma IntendedRightDropLandsAfter<T>(a: T, b: T, c: T)
    ensures IntendedReorder([a, b, c], 0, 1, Right) == [b, a, c]
  {
    var s := [a, b, c];
    assert IntendedInsertIndex(0, 1, Right, 3) == 1;
    var r := Move(s, 0, 1);
    MoveAt(s, 0, 1, 0);
    MoveAt(s, 0, 1, 2);
    ThreeElements(r, b, a, c);
  }

  /** Batch [A, B, C]: dragging A onto the right edge of C gives [B, C, A]. */
  lemma DragFirstToRightEdgeOfLast<T>(a: T, b: T, c: T)
    ensures Reorder([a, b, c], 0, 2, Right) == [b, c, a]
  {
    var s := [a, b, c];
    assert InsertIndex(0, 2, Right, 3) == 2;
    var r := Move(s, 0, 2);
    MoveAt(s, 0, 2, 0);
    MoveAt(s, 0, 2, 1);
    ThreeElements(r, b, c, a);
  }
}

=== FILE: pdftoimage.dfy ===
/** The PDF-to-image page: one PDF file and a page number; the rendered page comes
    back as an image shown through an object URL and offered for download. */
module PdfToImage {
  import opened Wrappers
  import opened Js
  import opened Browser

  const FileTooLargeAlert := "File is too large. Maximum size is 50 MB."

  /** The request body: the file, then the page number as decimal text that reads
      back as the same number. */
  function ConvertForm(file: File, pageNumber: int): (form: Form)
    ensures |form| == 2
    ensures form[0] == FormField("file", Blob(file))
    ensures form[1].name == "page_number" && form[1].value.Text?
            && ParseInt(form[1].value.text) == Some(pageNumber)
  {
    ParseIntToString(pageNumber, []);
    assert IntToString(pageNumber) + [] == IntToString(pageNumber);
    [FormField("file", Blob(file)), FormField("page_number", Text(IntToString(pageNumber)))]
  }

  /** The name the image is downloaded under, `page-<n>.png`: the page number is
      read back from the text between the prefix and the extension. */
  function ImageDownloadName(pageNumber: int): (name: string)
    ensures |name| > 9 && name[..5] == "page-" && name[|name| - 4..] == ".png"
    ensures ParseInt(name[5..]) == Some(pageNumber)
    ensures pageNumber >= 0 ==> (name[5] == '0' <==> pageNumber == 0)
    ensures pageNumber < 0 ==> name[5] == '-' && name[6] != '0'
  {
    var digits := IntToString(pageNumber);
    var name := "page-" + digits + ".png";
    assert name[5..] == digits + ".png";
    ParseIntToString(pageNumber, ".png");
    name
  }

  class PdfToImagePage {
    var file: Option<File>
    var pageNumber: int
    var previewImage: Option<Handle>
    var isSubmitting: bool
    const urls: ObjectUrls

    /** The page number is at least 1 and the preview on show is live. */
    ghost predicate Valid()
      reads this, urls
    {
      urls.Valid() && pageNumber >= 1
      && (previewImage.Some? ==> urls.Live(previewImage.value))
    }

    constructor (urls: ObjectUrls)
      requires urls.Valid()
      ensures Valid() && this.urls == urls
      ensures file == None && pageNumber == 1 && previewImage == None && !isSubmitting
    {
      this.urls := urls;
      file := None;
      pageNumber := 1;
      previewImage := None;
      isSubmitting := false;
    }

    /** `onDrop`: a first dropped file of PDF type replaces the current one and
        releases the preview of the old one; the page number is kept. */
    method OnDrop(dropped: seq<File>)
      requires Valid()
      modifies this`file, this`previewImage, urls
      ensures Valid()
      ensures urls.next == old(urls.next)
      ensures dropped != [] && IsPdf(dropped[0]) ==>
                file == Some(dropped[0]) && previewImage == None
                && urls.revoked == old(urls.revoked) + Listed(old(previewImage))
      ensures dropped == [] || !IsPdf(dropped[0]) ==>
                file == old(file) && previewImage == old(previewImage) && urls.revoked == old(urls.revoked)
    {
      if dropped != [] && IsPdf(dropped[0]) {
        file := Some(dropped[0]);
        urls.RevokeIfPresent(previewImage);
        previewImage := None;
      }
    }

    /** The page-number field's `onChange` with the text `input`: the typed page when
        it is a positive number, 1 otherwise. The preview is kept. */
    method OnPageNumberChange(input: string)
      requires Valid()
      modifies this`pageNumber
      ensures Valid()
      ensures pageNumber == ClampedInput(1, input)
    {
      pageNumber := ClampedInput(1, input);
    }

    /** `clearFile`: no file, page 1, and the preview released. */
    method ClearFile()
      requires Valid()
      modifies this`file, this`pageNumber, this`previewImage, urls
      ensures Valid()
      ensures file == None && pageNumber == 1 && previewImage == None
      ensures urls.next == old(urls.next) && urls.revoked == old(urls.revoked) + Listed(old(previewImage))
    {
      file := None;
      pageNumber := 1;
      urls.RevokeIfPresent(previewImage);
      previewImage := None;
    }

    /** `handleConvert`: nothing without a file; otherwise send the file and the page
        number, and on an ok response show the new image in place of the old one,
        whose handle is revoked first. A failure keeps the old preview. */
    method HandleConvert(response: Response) returns (request: Option<Form>, alert: Option<string>)
      requires Valid()
      modifies this`previewImage, this`isSubmitting, urls
      ensures Valid()
      ensures old(file) == None ==>
                request == None && alert == None && previewImage == old(previewImage)
                && isSubmitting == old(isSubmitting)
                && urls.next == old(urls.next) && urls.revoked == old(urls.revoked)
      ensures file.Some? ==>
                request == Some(ConvertForm(file.value, pageNumber)) && !isSubmitting
      ensures file.Some? && response.Ok? ==>
                alert == None && previewImage == Some(old(urls.next)) && urls.next == old(urls.next) + 1
                && urls.revoked == old(urls.revoked) + Listed(old(previewImage))
      ensures file.Some? && !response.Ok? ==>
                alert == Some(FailureAlert(response, FileTooLargeAlert))
                && previewImage == old(previewImage)
                && urls.next == old(urls.next) && urls.revoked == old(urls.revoked)
    {
      request, alert := None, None;
      if file.None? {
        return;
      }
      isSubmitting := true;
      request := Some(ConvertForm(file.value, pageNumber));
      if response.Ok? {
        var url := urls.Replace(previewImage);
        previewImage := Some(url);
      } else {
        alert := Some(FailureAlert(response, FileTooLargeAlert));
      }
      isSubmitting := false;
    }

    /** The download name offered next to the preview: it follows the page-number
        field as it is now, not the page the preview was rendered from. */
    function DownloadName(): (name: Option<string>)
      reads this
      ensures name.Some? <==> previewImage.Some?
      ensures name.Some? ==> |name.value| > 9 && ParseInt(name.value[5..]) == Some(pageNumber)
      ensures name.Some? ==> name.value[..5] == "page-" && name.value[|name.value| - 4..] == ".png"
      ensures name.Some? && pageNumber >= 0 ==> (name.value[5] == '0' <==> pageNumber == 0)
      ensures name.Some? && pageNumber < 0 ==> name.value[5] == '-' && name.value[6] != '0'
    {
      if previewImage.Some? then Some(ImageDownloadName(pageNumber)) else None
    }
  }

  /** Changing the page number after a conversion renames the offered download
      while the image on show stays the one rendered before. */
  lemma DownloadNameFollowsField(before: int, after: int)
    requires before != after
    ensures ImageDownloadName(before) != ImageDownloadName(after)
  {
    var a := ImageDownloadName(before);
    var b := ImageDownloadName(after);
    assert ParseInt(a[5..]) != ParseInt(b[5..]);
  }
}

=== FILE: seqs.dfy ===
/** Sequence operations behind the pages' array handling: `Array.prototype.filter`,
    removal by index and the two `splice` calls of a drag-and-drop move. */
module Seqs {

  /** `a` is `b` with some elements left out, the rest in their original order. */
  ghost predicate IsSubsequence<T>(a: seq<T>, b: seq<T>)
    decreases |b|
  {
    if b == [] then a == []
    else IsSubsequence(a, b[1..]) || (a != [] && a[0] == b[0] && IsSubsequence(a[1..], b[1..]))
  }

  /** `s.filter(p)`. */
  function Filter<T(!new)>(p: T -> bool, s: seq<T>): (r: seq<T>)
    ensures |r| <= |s|
    ensures forall x :: x in r <==> x in s && p(x)
  {
    if s == [] then []
    else
      assert s == [s[0]] + s[1..];
      (if p(s[0]) then [s[0]] else []) + Filter(p, s[1..])
  }

  /** The filter keeps the order of the elements it keeps. */
  lemma {:induction false} FilterIsSubsequence<T(!new)>(p: T -> bool, s: seq<T>)
    ensures IsSubsequence(Filter(p, s), s)
  {
    if s != [] {
      FilterIsSubsequence(p, s[1..]);
      var rest := Filter(p, s[1..]);
      if p(s[0]) {
        assert Filter(p, s) == [s[0]] + rest;
        assert ([s[0]] + rest)[1..] == rest;
      } else {
        assert Filter(p, s) == rest;
      }
    }
  }

  /** The filter keeps every occurrence of an element that passes, and none of one that fails. */
  lemma {:induction false} FilterCount<T(!new)>(p: T -> bool, s: seq<T>, x: T)
    ensures multiset(Filter(p, s))[x] == if p(x) then multiset(s)[x] else 0
  {
    if s != [] {
      FilterCount(p, s[1..], x);
      assert s == [s[0]] + s[1..];
    }
  }

  /** `s.filter((_, k) => k !== i)` for an index `i` of `s`. */
  function RemoveAt<T>(s: seq<T>, i: nat): (r: seq<T>)
    requires i < |s|
    ensures |r| == |s| - 1
    ensures forall k :: 0 <= k < i ==> r[k] == s[k]
    ensures forall k :: i <= k < |r| ==> r[k] == s[k + 1]
    ensures multiset(r) + multiset{s[i]} == multiset(s)
  {
    assert s == s[..i] + [s[i]] + s[i + 1..];
    s[..i] + s[i + 1..]
  }

  /** `s.splice(i, 0, x)`: `x` inserted so that it sits at index `i`. */
  function InsertAt<T>(s: seq<T>, i: nat, x: T): (r: seq<T>)
    requires i <= |s|
    ensures |r| == |s| + 1
    ensures r[i] == x
    ensures forall k :: 0 <= k < i ==> r[k] == s[k]
    ensures forall k :: i < k < |r| ==> r[k] == s[k - 1]
    ensures multiset(r) == multiset(s) + multiset{x}
  {
    assert s == s[..i] + s[i..];
    s[..i] + [x] + s[i..]
  }

  /** Take the element at `from` out and put it back so that it sits at `to`. */
  function Move<T>(s: seq<T>, from: nat, to: nat): (r: seq<T>)
    requires from < |s| && to < |s|
    ensures |r| == |s|
    ensures r[to] == s[from]
    ensures multiset(r) == multiset(s)
  {
    InsertAt(RemoveAt(s, from), to, s[from])
  }

  /** Apart from the moved element, the order is untouched: taking it out again
      gives what taking it out of the original gave. */
  lemma MoveKeepsOthers<T>(s: seq<T>, from: nat, to: nat)
    requires from < |s| && to < |s|
    ensures RemoveAt(Move(s, from, to), to) == RemoveAt(s, from)
  {
    var rest := RemoveAt(s, from);
    var r := Move(s, from, to);
    assert RemoveAt(r, to) == rest by {
      forall k | 0 <= k < |rest|
        ensures RemoveAt(r, to)[k] == rest[k]
      {
      }
    }
  }

  /** Where an element that is not the moved one comes from. */
  lemma MoveAt<T>(s: seq<T>, from: nat, to: nat, k: nat)
    requires from < |s| && to < |s| && k < |s| && k != to
    ensures var j := if k < to then k else k - 1;
            Move(s, from, to)[k] == s[if j < from then j else j + 1]
  {
  }
}

=== FILE: split.dfy ===
/** The split page: one PDF file and a page range, sent to be cut out of the file
    and downloaded straight away. */
module Split {
  import opened Wrappers
  import opened Js
  import opened Browser

  const FileTooLargeAlert := "File is too large. Maximum size is 50 MB."

  /** The request body: the file, then the two page numbers as decimal text. The
      numbers written are the numbers read back, so the server extracts the range
      on show. */
  function SplitForm(file: File, startPage: int, endPage: int): (form: Form)
    ensures |form| == 3
    ensures form[0] == FormField("file", Blob(file))
    ensures form[1].name == "start_page" && form[1].value.Text?
            && ParseInt(form[1].value.text) == Some(startPage)
    ensures form[2].name == "end_page" && form[2].value.Text?
            && ParseInt(form[2].value.text) == Some(endPage)
  {
    ParseIntToString(startPage, []);
    ParseIntToString(endPage, []);
    assert IntToString(startPage) + [] == IntToString(startPage);
    assert IntToString(endPage) + [] == IntToString(endPage);
    [FormField("file", Blob(file)),
     FormField("start_page", Text(IntToString(startPage))),
     FormField("end_page", Text(IntToString(endPage)))]
  }

  /** The name the extracted range is saved under. */
  function DownloadName(file: File): (name: string)
    ensures |name| == 6 + |file.name| && name[..6] == "split_" && name[6..] == file.name
  {
    "split_" + file.name
  }

  class SplitPage {
    var file: Option<File>
    var startPage: int
    var endPage: int
    var isSubmitting: bool
    const urls: ObjectUrls

    /** The range on show is never empty and starts at page 1 or later. */
    ghost predicate Valid()
      reads this, urls
    {
      urls.Valid() && 1 <= startPage <= endPage
    }

    constructor (urls: ObjectUrls)
      requires urls.Valid()
      ensures Valid() && this.urls == urls
      ensures file == None && startPage == 1 && endPage == 1 && !isSubmitting
    {
      this.urls := urls;
      file := None;
      startPage := 1;
      endPage := 1;
      isSubmitting := false;
    }

    /** `onDrop`: the first dropped file replaces the current one when it is a PDF;
        anything else, or an empty drop, changes nothing. */
    method OnDrop(dropped: seq<File>)
      requires Valid()
      modifies this`file
      ensures Valid()
      ensures dropped != [] && IsPdf(dropped[0]) ==> file == Some(dropped[0])
      ensures dropped == [] || !IsPdf(dropped[0]) ==> file == old(file)
    {
      if dropped != [] && IsPdf(dropped[0]) {
        file := Some(dropped[0]);
      }
    }

    /** The start-page field's `onChange` with the text `input`: the typed page when
        it is a positive number, 1 otherwise; the end page is raised to it if below. */
    method OnStartPageChange(input: string)
      requires Valid()
      modifies this`startPage, this`endPage
      ensures Valid()
      ensures startPage == ClampedInput(1, input)
      ensures endPage == Max(startPage, old(endPage))
    {
      var value := ClampedInput(1, input);
      startPage := value;
      endPage := Max(value, endPage);
    }

    /** The end-page field's `onChange` with the text `input`: the typed page when it
        is a number not below the start page, the start page otherwise. */
    method OnEndPageChange(input: string)
      requires Valid()
      modifies this`endPage
      ensures Valid()
      ensures endPage == ClampedInput(startPage, input)
    {
      endPage := ClampedInput(startPage, input);
    }

    /** `clearFile`: no file, and the range back to page 1 alone. */
    method ClearFile()
      requires Valid()
      modifies this`file, this`startPage, this`endPage
      ensures Valid()
      ensures file == None && startPage == 1 && endPage == 1
    {
      file := None;
      startPage := 1;
      endPage := 1;
    }

    /** `handleSplit`: nothing without a file; otherwise send the file and the range.
        On an ok response the result is saved as `split_<name>` through an object URL
        that is revoked at once, so the page never holds one. */
    method HandleSplit(response: Response)
      returns (request: Option<Form>, alert: Option<string>, download: Option<string>)
      requires Valid()
      modifies this`isSubmitting, urls
      ensures Valid()
      ensures old(file) == None ==>
                request == None && alert == None && download == None
                && isSubmitting == old(isSubmitting)
                && urls.next == old(urls.next) && urls.revoked == old(urls.revoked)
      ensures file.Some? ==>
                request == Some(SplitForm(file.value, startPage, endPage)) && !isSubmitting
      ensures file.Some? && response.Ok? ==>
                alert == None && download == Some(DownloadName(file.value))
                && urls.next == old(urls.next) + 1 && urls.revoked == old(urls.revoked) + [old(urls.next)]
      ensures file.Some? && !response.Ok? ==>
                alert == Some(FailureAlert(response, FileTooLargeAlert)) && download == None
                && urls.next == old(urls.next) && urls.revoked == old(urls.revoked)
    {
      request, alert, download := None, None, None;
      if file.None? {
        return;
      }
      isSubmitting := true;
      request := Some(SplitForm(file.value, startPage, endPage));
      if response.Ok? {
        var url := urls.Create();
        download := Some(DownloadName(file.value));
        urls.Revoke(url);
      } else {
        alert := Some(FailureAlert(response, FileTooLargeAlert));
      }
      isSubmitting := false;
    }
  }

  /** Empty text and `0` both fall back to the floor. */
  lemma FallbackOnEmptyOrZero()
    ensures ClampedInput(1, "") == 1
    ensures ClampedInput(1, "0") == 1
  {
    ParseIntToString(0, []);
    assert IntToString(0) + [] == "0";
  }

  /** A decimal is cut at the point, after the leading space is skipped. */
  lemma DecimalCutAtPoint()
    ensures ClampedInput(1, " 3.7") == 3
  {
    ParseIntToString(3, ".7");
    assert IntToString(3) + ".7" == "3.7";
    assert TrimStart(" 3.7") == "3.7";
  }

  /** An end page typed below the start page, or negative, gives the start page. */
  lemma EndBelowStartRaised()
    ensures ClampedInput(4, "2") == 4
    ensures ClampedInput(4, "-5") == 4
  {
    ParseIntToString(2, []);
    assert IntToString(2) + [] == "2";
    ParseIntToString(-5, []);
    assert IntToString(-5) + [] == "-5";
  }
}

=== FILE: wrappers.dfy ===
/** A value that may be absent: JavaScript's `null`, `undefined` and `NaN` results. */
module Wrappers {

  datatype Option<+T> = None | Some(value: T)

  /** The handle list `[h]` when `o` holds `h`, and `[]` otherwise. */
  function Listed<T>(o: Option<T>): (r: seq<T>)
    ensures o.None? ==> r == []
    ensures o.Some? ==> r == [o.value]
  {
    if o.Some? then [o.value] else []
  }
}
